=== FILE: README.md ===
# Little Treat menu: order-state model

A Dafny model of the order logic behind the Little Treat restaurant menu
page (`assets/js/app.js`). The page loads a menu of categories and items,
lets a visitor raise or lower a quantity per item, shows the selected items
and the order total, and hands the order off as a WhatsApp link.

What is modelled:

- **MenuModel** (`menu_model.dfy`): reading the fetch outcome; loading the
  menu from the primary source or the embedded fallback (both run the same
  population); `setQuantity`, `getQuantity`, `getSelectedItems` and
  `getOrderTotal`. A JavaScript `Map` iterates in insertion order, and
  setting a key that is already present keeps its place. The model records
  that order for the quantities map as `order`.
- **Menu data** (`menu_data.dfy`): the shape of the menu body. A
  `categories` field that is not an array reads as no categories. A missing
  or falsy `items` field reads as an empty list.
- **Quantity buttons** (`clicks.dfy`): decoding a click into an item id and a
  +1/-1 delta; the handler that adds the delta and clamps at zero; and a
  closed form for any sequence of clicks.
- **Text helpers** (`text.dfy`): stripping the phone number to its digits,
  rendering a quantity in decimal, and joining the message lines.
- **Booking** (`booking.dfy`): the empty-order notice, or the link
  `https://wa.me/<digits>?text=<encoded message>`.
- **Controller** (`controller.dfy`): the constructor, `init`, and a step
  function for each click on a quantity button, the book button, the nav
  toggle or a nav link.

The model has no I/O. The fetch result and the fallback copy are inputs.
Currency formatting and URL encoding are function parameters. Opening a
window and showing an alert become result values.

Behaviour of the code worth noting:

- Selected items come out in the quantities map's insertion order, not in an
  arbitrary order.
- When loading fails, `registerEvents` is never called. So the nav toggle and
  nav links are also left unbound, not only the quantity and booking
  handlers.
- The quantity handler clamps at zero itself. `setQuantity` then clamps a
  second time.

## Model

| member | source | states |
|---|---|---|
| MenuData.FlattenMembers | assets/js/app.js:24-29 | The pairs loading walks through are exactly the items listed under each category, each tagged with that category's id. |
| MenuModel.ReadResponse | assets/js/app.js:12-18 | The body is used only when the fetch resolved with an ok status and parsed. A non-ok status fails and carries its status code. An ok response whose body does not parse fails as a malformed body. A rejected fetch fails as a network error. |
| MenuModel.Load | assets/js/app.js:9-57 | Loading fails exactly when the primary source failed and there is no fallback. The error is then the primary source's error. A successful load holds the population (`Populate`) of the fetched body, or of the fallback body when the fetch failed. |
| MenuModel.FallbackSameAsPrimary | assets/js/app.js:37-52 | Loading from the fallback gives the same state as loading the same body on the primary path, and it always succeeds. |
| MenuModel.PutValid | assets/js/app.js:26-27 | Storing one loaded item keeps the invariant: the same keys in both maps, each key once in iteration order, quantities non-negative, each item filed under its own id. |
| MenuModel.BuildValid | assets/js/app.js:21-29 | Clearing both maps and then storing every item leaves a state that meets the invariant. |
| MenuModel.BuildKeys | assets/js/app.js:21-29 | After clearing and storing, the stored ids are exactly the loaded items' ids, each with quantity 0. |
| MenuModel.BuildValuesFromEntries | assets/js/app.js:24-29 | Every stored item is one of the loaded (item, category) pairs. |
| MenuModel.BuildKeepsLast | assets/js/app.js:24-29 | When an id appears more than once, the last listing is the one stored. |
| MenuModel.PopulateSpec | assets/js/app.js:20-29 | Stated of `MenuModel.Populate`, the step both load paths run. After a load, every item of every category is stored with quantity 0, tagged with its own category's id. No other id is stored, so nothing from earlier state survives. Duplicates keep their last listing. The categories are those of the body, or none when the field is not an array. |
| MenuModel.LoadStartsEmpty | assets/js/app.js:20-32 | A successful load meets the invariant, selects nothing, and has a total of 0. |
| MenuModel.SetQuantity | assets/js/app.js:59-67 | An unknown id fails with the unknown-item error, and the state is left as it was. A known id stores and returns max(0, q). Every other id's quantity and the item lookup are unchanged, and the invariant is kept. |
| MenuModel.GetQuantity | assets/js/app.js:69-71 | An id with a stored quantity reads as that value, and an id with none reads as 0. In a valid state every reading is non-negative. |
| MenuModel.GetAfterSet | assets/js/app.js:59-71 | After a successful set, the id reads back as max(0, q), and every other id reads as before. |
| MenuModel.SelectFromSound | assets/js/app.js:76-87 | Each selected line comes from an id with a positive quantity. It carries that id's stored item and quantity, and a subtotal of quantity times price. |
| MenuModel.SelectFromComplete | assets/js/app.js:76-87 | Every visited id with a positive quantity gets a line. |
| MenuModel.SelectFromDistinct | assets/js/app.js:76-87 | No id gets two lines. |
| MenuModel.SelectedItemsExact | assets/js/app.js:73-90 | Stated of `MenuModel.SelectedItems`. The selected items are exactly the items with a positive quantity, each once. They come in the quantities' iteration order. Each carries its stored item, its quantity, and quantity times price. |
| MenuModel.NothingSelectedIffAllZero | assets/js/app.js:73-90 | Nothing is selected if and only if every quantity is 0. |
| MenuModel.OrderTotalIsLineTotal | assets/js/app.js:92-94 | The order total (`MenuModel.OrderTotal`), which sums the selected subtotals, equals quantity times price summed over every loaded item. |
| MenuModel.TotalZeroWhenNothingSelected | assets/js/app.js:92-94 | With every quantity at 0, the total is 0. |
| MenuModel.SetQuantityMovesTotal | assets/js/app.js:59-94 | Setting one item's quantity changes the total by exactly (new quantity - old quantity) times that item's price. |
| Clicks.ClickDelta | assets/js/app.js:269 | The delta is +1 exactly when the action is "increase", and -1 otherwise. |
| Clicks.DecodeClick | assets/js/app.js:264-270 | A click reaches the handler only if the button has a non-empty item id and a non-empty action. The handler then gets that id and `ClickDelta` of the action: +1 for "increase" and -1 for any other action. |
| Clicks.HandleQuantityChange | assets/js/app.js:373-377 | The handler fails exactly for an unknown id. Otherwise the new quantity is max(0, current + delta), so a decrement at 0 leaves 0. Other quantities, the item lookup, the categories and the iteration order are unchanged, and the invariant holds. |
| Clicks.ApplyDeltasFollowsWalk | assets/js/app.js:373-379 | For any sequence of clicks on a loaded item, its quantity is the walk that adds each delta and clamps at zero. Every other item keeps its quantity, the item lookup, categories and iteration order are kept, and the invariant holds throughout. |
| Clicks.ClampedWalkClosedForm | assets/js/app.js:375 | Clamping at zero after each step gives the running sum, lifted by however far below zero it ever went. |
| Clicks.NoClampWhileAboveZero | assets/js/app.js:375 | If the running quantity never goes below zero, the result is the start plus the sum of the deltas. |
| Clicks.ApplyDeltasClosedForm | assets/js/app.js:373-377 | The closed form for any click sequence on a loaded item, stated on the model. |
| Clicks.UnknownIdClicksChangeNothing | assets/js/app.js:373-377 | Clicks on an id that was never loaded leave the state unchanged, however many there are. |
| Text.DigitsOnly | assets/js/app.js:354 | The stored recipient contains only decimal digits and is no longer than the configured number. |
| Text.DigitsOnlyKeepsDigitsInOrder | assets/js/app.js:354 | Stripping keeps every digit in its original order: the result is a subsequence of the input and has each digit as often as the input does. |
| Text.DigitsOnlyFixesDigits | assets/js/app.js:354 | A string that is already all digits is left unchanged. |
| Text.NatToDecimal | assets/js/app.js:418 | A quantity's decimal spelling is non-empty, all digits, and has no leading zero. |
| Text.DecimalRoundTrip | assets/js/app.js:418 | Reading a rendered quantity back gives the quantity. |
| Text.IntToDecimal | assets/js/app.js:418 | A template literal's spelling of an integer is non-empty digits with no leading zero, and it reads back as that integer. A negative integer gets a leading '-'. |
| Text.JoinContainsLines | assets/js/app.js:425 | Every line appears whole in the joined message. |
| Booking.ItemLines | assets/js/app.js:418 | There is one "• name × quantity = formatted subtotal" line per selected item, in selection order. |
| Booking.MessageLinesShape | assets/js/app.js:413-423 | The message has the item lines at positions 4 onward and the total line right after them and a blank line. |
| Booking.MessageHasEveryLine | assets/js/app.js:413-425 | The joined message contains every item line and the "Total: " line. |
| Booking.BookOrder | assets/js/app.js:404-410 | Booking shows the empty-order notice, and opens no link, exactly when nothing is selected. |
| Booking.LinkRoundTrip | assets/js/app.js:426 | A link built for a digits-only recipient splits back into exactly that recipient and that text. |
| Booking.BookOrderNoticeIffAllZero | assets/js/app.js:404-410 | Booking gives the empty-order notice if and only if every quantity is 0. |
| Booking.BookOrderLinkReadsBack | assets/js/app.js:412-427 | With a digits-only recipient, the opened link reads back as exactly that recipient and the encoded order message. |
| Controller.NewApp | assets/js/app.js:351-356 | A new controller stores the number as a digits-only subsequence of the configured one that keeps every digit. Navigation starts closed and the model starts empty. |
| Controller.Init | assets/js/app.js:358-370 | Init becomes ready exactly when loading succeeds. It then holds the loaded model and shows its categories with an empty summary and a total of 0. Otherwise it shows the unavailable message and keeps its state. |
| Controller.Step | assets/js/app.js:372-391 | Nothing reacts before a successful load. The nav toggle flips the flag and a nav link forces it to false. Booking changes nothing and produces the outcome of `Booking.BookOrder`, so the link properties carry over to the controller. A decoded quantity click moves the model as the quantity handler does. It then shows the new quantity, selection and total of the new state. An unknown id is an error that changes nothing. |
| Controller.RunKeepsInvariant | assets/js/app.js:372-391 | Over any run of clicks the invariant holds, so quantities stay non-negative and the recipient stays digits only. |
| Controller.UnavailableIgnoresClicks | assets/js/app.js:358-370 | After a failed load, no sequence of clicks changes anything. |
| Controller.StepOnButtonIsClick | assets/js/app.js:373-379 | A quantity-button click moves the model the way the click handler does. |
| Controller.ClicksApplyDeltas | assets/js/app.js:373-379 | A run of button clicks on one item applies their deltas to the model in order. |
| Controller.QuantityAfterClicks | assets/js/app.js:373-379 | For any run of increase/decrease clicks on a loaded item, its quantity is the clamped running sum of the deltas, in closed form. |
| Controller.QuantityAfterRun | assets/js/app.js:372-391 | For any run of events on a ready controller, a loaded item's quantity is the clamped running sum of the deltas of the clicks decoded as clicks on that item. Clicks on other items, bookings and navigation clicks may be interleaved. The invariant and the item lookup are kept. |

## Left out

- Network fetch, `response.ok` and `response.json()`: I/O. They appear only
  as a `FetchOutcome` turned into a `Result`.
- A body that parses but has entries that throw: a `null` category, a
  `null` item, or a category whose `items` is truthy but not an array (`{}`
  or `"x"`, whose missing `forEach` throws). A missing or falsy `items`
  reads as empty, and that case is modelled. The model's types rule the
  throwing entries out. In the source they throw partway through
  populating, after the maps were cleared. On the fetched body that throw
  is caught and the fallback copy is loaded instead. Only when there is no
  fallback (or the fallback itself throws) does the error escape, leaving
  the maps partly filled.
- An item with no `id` does not throw. `Map.set(undefined, ...)` stores it
  under the key `undefined`. Its buttons carry the text `"undefined"`, which
  never matches that key, so every click on it fails as an unknown item.
  The model's items always have a string id, so this case is not modelled.
- Item ids are modelled as strings. A body with numeric ids would store
  number keys, which the string ids read from the buttons never match.
- `console.log` and `console.error`: logging only.
- The DOM side of MenuView (`renderMenu`, `createCategorySection`,
  `createMenuItemCard`, `updateQuantityDisplay`, `updateOrderSummary`,
  `toggleNavigation`, `showLoadError`): UI rendering. The controller returns
  what it would show as an `Effect` value instead.
- The IntersectionObserver reveal animation and the scroll listener
  (`setNavScrolled`): cosmetic and driven by the browser.
- `Intl.NumberFormat` (en-IN, INR, no fraction digits) and
  `encodeURIComponent`: library calls. They are passed in as functions and
  not looked into.
- `window.open` and `window.alert`: browser effects. They are the
  `OpenLink` and `EmptyNotice` outcomes.
- Prices and totals are whole numbers. The source uses floating-point
  numbers.
- The asynchronous sequencing of `init`: it has a single await and no
  concurrency. `Controller.Init` requires the loading phase because the page
  calls `init` exactly once.
- Exceptions thrown by rendering inside `init`'s `try`: rendering is not
  modelled.
- MenuModel.PopulateSpec: states which ids are stored and that each
  appears once in the iteration order. It does not state that this order is
  the order in which the ids are first listed.

=== FILE: booking.dfy ===
/** Booking an order (app.js, `handleBookOrder`): either the empty-order
    notice, or an outbound messaging link carrying the order text.

    Currency formatting (`Intl.NumberFormat`, en-IN, INR, no fraction
    digits) and URL encoding (`encodeURIComponent`) are passed in as
    functions: this model does not look inside them. */
module Booking {
  import opened Wrappers
  import opened MenuModel
  import opened Text

  datatype BookOutcome = EmptyNotice | OpenLink(url: string)

  const LinkPrefix: string := "https://wa.me/"
  const TextParameter: string := "?text="

  /** One order line: "• name × quantity = formatted subtotal". */
  function ItemLine(s: SelectedItem, format: int -> string): string {
    "• " + s.entry.item.name + " × " + IntToDecimal(s.quantity) + " = " + format(s.subtotal)
  }

  function ItemLines(items: seq<SelectedItem>, format: int -> string): (r: seq<string>)
    ensures |r| == |items|
    ensures forall k :: 0 <= k < |items| ==> r[k] == ItemLine(items[k], format)
  {
    seq(|items|, k requires 0 <= k < |items| => ItemLine(items[k], format))
  }

  function TotalLine(total: int, format: int -> string): string {
    "Total: " + format(total)
  }

  /** The lines of the order message: a greeting, one line per selected
      item in selection order, the total, and a closing request. */
  function MessageLines(items: seq<SelectedItem>, total: int, format: int -> string): seq<string> {
    Greeting + ItemLines(items, format) + Closing(total, format)
  }

  const Greeting: seq<string> := ["Hello Little Treat,", "", "I would like to place an order:", ""]

  function Closing(total: int, format: int -> string): seq<string> {
    ["", TotalLine(total, format), "", "Please confirm availability."]
  }

  function OrderMessage(items: seq<SelectedItem>, total: int, format: int -> string): string {
    Join(MessageLines(items, total, format), "\n")
  }

  function BuildLink(recipient: string, text: string): string {
    LinkPrefix + recipient + TextParameter + text
  }

  /** `handleBookOrder`: nothing selected gives the notice and no link;
      otherwise the link to the recipient carries the encoded message. */
  function BookOrder(m: Model, recipient: string, format: int -> string, encode: string -> string): (r: BookOutcome)
    ensures r.EmptyNotice? <==> |SelectedItems(m)| == 0
  {
    var items := SelectedItems(m);
    if |items| == 0 then EmptyNotice
    else OpenLink(BuildLink(recipient, encode(OrderMessage(items, OrderTotal(m), format))))
  }

  // ---------------------------------------------------------------------
  // Reading a link back

  /** The first position of `c` in `s`. */
  function IndexOf(s: string, c: char): (r: Option<nat>)
    ensures r.Some? ==> r.value < |s| && s[r.value] == c && forall i :: 0 <= i < r.value ==> s[i] != c
    ensures r.None? ==> forall i :: 0 <= i < |s| ==> s[i] != c
  {
    if |s| == 0 then None
    else if s[0] == c then Some(0)
    else match IndexOf(s[1..], c)
      case None => None
      case Some(i) => Some(i + 1)
  }

  /** Splits a link into its recipient (up to the first '?') and its text
      parameter, when it has the expected shape. */
  function ParseLink(url: string): Option<(string, string)> {
    if |url| < |LinkPrefix| || url[..|LinkPrefix|] != LinkPrefix then None
    else
      var rest := url[|LinkPrefix|..];
      match IndexOf(rest, '?')
      case None => None
      case Some(q) =>
        if q + |TextParameter| <= |rest| && rest[q..q + |TextParameter|] == TextParameter
        then Some((rest[..q], rest[q + |TextParameter|..]))
        else None
  }

  /** A recipient of digits cannot contain the '?' that starts the query, so
      the link splits back into exactly the recipient and the text. */
  lemma LinkRoundTrip(recipient: string, text: string)
    requires AllDigits(recipient)
    ensures ParseLink(BuildLink(recipient, text)) == Some((recipient, text))
  {
    var url := BuildLink(recipient, text);
    assert url[..|LinkPrefix|] == LinkPrefix;
    var rest := url[|LinkPrefix|..];
    assert rest == recipient + TextParameter + text;
    assert rest[|recipient|] == '?';
    assert forall i :: 0 <= i < |recipient| ==> rest[i] == recipient[i] && rest[i] != '?';
    var q := IndexOf(rest, '?');
    assert q == Some(|recipient|);
    assert rest[..|recipient|] == recipient;
    assert rest[|recipient|..|recipient| + |TextParameter|] == TextParameter;
    assert rest[|recipient| + |TextParameter|..] == text;
  }

  /** Where the item lines and the total line sit among the message lines. */
  lemma MessageLinesShape(items: seq<SelectedItem>, total: int, format: int -> string)
    ensures |MessageLines(items, total, format)| == |items| + 8
    ensures forall k :: 0 <= k < |items| ==> MessageLines(items, total, format)[4 + k] == ItemLine(items[k], format)
    ensures MessageLines(items, total, format)[|items| + 5] == TotalLine(total, format)
  {
    var body := ItemLines(items, format);
    var tail := Closing(total, format);
    assert |Greeting| == 4 && |tail| == 4 && tail[1] == TotalLine(total, format);
    ConcatShape(Greeting, body, tail);
  }

  lemma ConcatShape<T>(head: seq<T>, body: seq<T>, tail: seq<T>)
    ensures |head + body + tail| == |head| + |body| + |tail|
    ensures forall k :: 0 <= k < |body| ==> (head + body + tail)[|head| + k] == body[k]
    ensures forall k :: 0 <= k < |tail| ==> (head + body + tail)[|head| + |body| + k] == tail[k]
  {
  }

  /** The message holds every item line in full and the total line. */
  lemma MessageHasEveryLine(items: seq<SelectedItem>, total: int, format: int -> string)
    ensures forall k :: 0 <= k < |items| ==> IsInfix(ItemLine(items[k], format), OrderMessage(items, total, format))
    ensures IsInfix(TotalLine(total, format), OrderMessage(items, total, format))
  {
    var lines := MessageLines(items, total, format);
    var message := OrderMessage(items, total, format);
    assert message == Join(lines, "\n");
    MessageLinesShape(items, total, format);
    JoinContainsLines(lines, "\n");
    forall k | 0 <= k < |items|
      ensures IsInfix(ItemLine(items[k], format), message)
    {
      assert lines[4 + k] == ItemLine(items[k], format);
    }
    assert lines[|items| + 5] == TotalLine(total, format);
  }

  /** Booking shows the notice exactly when every quantity is 0. */
  lemma BookOrderNoticeIffAllZero(m: Model, recipient: string, format: int -> string, encode: string -> string)
    requires Valid(m)
    ensures BookOrder(m, recipient, format, encode).EmptyNotice? <==>
      forall id :: id in m.quantities ==> m.quantities[id] == 0
  {
    NothingSelectedIffAllZero(m);
  }

  /** The opened link reads back as the stripped recipient and the encoded
      order message. */
  lemma BookOrderLinkReadsBack(m: Model, recipient: string, format: int -> string, encode: string -> string)
    requires AllDigits(recipient)
    requires BookOrder(m, recipient, format, encode).OpenLink?
    ensures ParseLink(BookOrder(m, recipient, format, encode).url) ==
      Some((recipient, encode(OrderMessage(SelectedItems(m), OrderTotal(m), format))))
  {
    LinkRoundTrip(recipient, encode(OrderMessage(SelectedItems(m), OrderTotal(m), format)));
  }
}

=== FILE: clicks.dfy ===
/** Quantity buttons (app.js, `bindQuantityChange` and the quantity handler
    in `registerEvents`): decoding a click into an item id and a delta, and
    applying the delta with the quantity clamped at zero. */
module Clicks {
  import opened Wrappers
  import opened MenuModel

  /** "increase" adds one; every other action removes one. */
  function ClickDelta(action: string): (d: int)
    ensures d == 1 || d == -1
    ensures d == 1 <==> action == "increase"
  {
    if action == "increase" then 1 else -1
  }

  /** A click reaches the handler only when the button carries a non-empty
      item id and a non-empty action. */
  function DecodeClick(itemId: Option<string>, action: Option<string>): (r: Option<(string, int)>)
    ensures r.Some? <==> itemId.Some? && itemId.value != "" && action.Some? && action.value != ""
    ensures r.Some? ==> r.value == (itemId.value, ClickDelta(action.value))
  {
    if itemId.None? || itemId.value == "" || action.None? || action.value == "" then None
    else Some((itemId.value, ClickDelta(action.value)))
  }

  /** The quantity handler: reads the current quantity, adds the delta,
      clamps at zero and stores the result. An unknown id fails in the store
      step and changes nothing. */
  function HandleQuantityChange(m: Model, id: string, delta: int): (r: Result<Model, ModelError>)
    ensures r.Failure? <==> id !in m.itemsById
    ensures r.Success? ==>
      var before, after := GetQuantity(m, id), GetQuantity(r.value, id);
      after >= 0 && after >= before + delta && (after == before + delta || after == 0)
    ensures r.Success? && GetQuantity(m, id) == 0 && delta < 0 ==> GetQuantity(r.value, id) == 0
    ensures r.Success? ==> forall other :: other != id ==> GetQuantity(r.value, other) == GetQuantity(m, other)
    ensures r.Success? ==> r.value.itemsById == m.itemsById && r.value.categories == m.categories
    ensures r.Success? && Valid(m) ==> Valid(r.value) && r.value.order == m.order
  {
    var next := ClampAtZero(GetQuantity(m, id) + delta);
    match SetQuantity(m, id, next)
    case Success((m', _)) => Success(m')
    case Failure(e) => Failure(e)
  }

  /** The state after one click: a failing click leaves it as it was. */
  function AfterClick(m: Model, id: string, delta: int): Model {
    match HandleQuantityChange(m, id, delta)
    case Success(m') => m'
    case Failure(_) => m
  }

  /** Handles the clicks of one item in turn. */
  function ApplyDeltas(m: Model, id: string, deltas: seq<int>): Model
    decreases |deltas|
  {
    if |deltas| == 0 then m
    else AfterClick(ApplyDeltas(m, id, deltas[..|deltas| - 1]), id, deltas[|deltas| - 1])
  }

  // ---------------------------------------------------------------------
  // The clamped walk and its closed form

  /** Starting from `q0`, add each delta and clamp at zero after each step. */
  function ClampedWalk(q0: int, deltas: seq<int>): int
    decreases |deltas|
  {
    if |deltas| == 0 then q0
    else ClampAtZero(ClampedWalk(q0, deltas[..|deltas| - 1]) + deltas[|deltas| - 1])
  }

  function RunningSum(deltas: seq<int>): int
    decreases |deltas|
  {
    if |deltas| == 0 then 0 else RunningSum(deltas[..|deltas| - 1]) + deltas[|deltas| - 1]
  }

  /** The lowest running sum over all prefixes, the empty one included. */
  function LowestRunningSum(deltas: seq<int>): (r: int)
    ensures r <= 0 && r <= RunningSum(deltas)
    decreases |deltas|
  {
    if |deltas| == 0 then 0
    else
      var low := LowestRunningSum(deltas[..|deltas| - 1]);
      var s := RunningSum(deltas);
      if s < low then s else low
  }

  function Min(a: int, b: int): int {
    if a < b then a else b
  }

  /** Reference form of the walk: the running sum from `q0`, lifted by
      however far it ever sank below zero. */
  function LiftedSum(q0: int, deltas: seq<int>): int {
    q0 + RunningSum(deltas) - Min(q0 + LowestRunningSum(deltas), 0)
  }

  /** Clamping after every step is the same as lifting the running sum by
      however far it ever sank below zero. */
  lemma {:induction false} ClampedWalkClosedForm(q0: nat, deltas: seq<int>)
    ensures ClampedWalk(q0, deltas) == LiftedSum(q0, deltas)
  {
    if |deltas| != 0 {
      ClampedWalkClosedForm(q0, deltas[..|deltas| - 1]);
    }
  }

  /** When the running sum never sinks below `-q0`, no clamp ever bites and
      the quantity is `q0` plus the sum of the deltas. */
  lemma {:induction false} NoClampWhileAboveZero(q0: nat, deltas: seq<int>)
    requires q0 + LowestRunningSum(deltas) >= 0
    ensures ClampedWalk(q0, deltas) == q0 + RunningSum(deltas)
  {
    ClampedWalkClosedForm(q0, deltas);
  }

  /** For any sequence of clicks on one loaded item, its quantity follows the
      clamped walk, every other item keeps its quantity, and the model
      invariant holds throughout. */
  lemma {:induction false} ApplyDeltasFollowsWalk(m: Model, id: string, deltas: seq<int>)
    requires Valid(m)
    requires id in m.itemsById
    ensures Valid(ApplyDeltas(m, id, deltas))
    ensures ApplyDeltas(m, id, deltas).itemsById == m.itemsById
    ensures ApplyDeltas(m, id, deltas).order == m.order
    ensures ApplyDeltas(m, id, deltas).categories == m.categories
    ensures GetQuantity(ApplyDeltas(m, id, deltas), id) == ClampedWalk(GetQuantity(m, id), deltas)
    ensures forall other :: other != id ==> GetQuantity(ApplyDeltas(m, id, deltas), other) == GetQuantity(m, other)
  {
    if |deltas| != 0 {
      var prefix := deltas[..|deltas| - 1];
      ApplyDeltasFollowsWalk(m, id, prefix);
      var m0 := ApplyDeltas(m, id, prefix);
      var r := HandleQuantityChange(m0, id, deltas[|deltas| - 1]);
      assert r.Success?;
      assert GetQuantity(r.value, id) == ClampAtZero(GetQuantity(m0, id) + deltas[|deltas| - 1]);
    }
  }

  /** The quantity after any sequence of clicks on a loaded item, in closed
      form: the running sum, lifted by however far it ever sank below zero. */
  lemma ApplyDeltasClosedForm(m: Model, id: string, deltas: seq<int>)
    requires Valid(m)
    requires id in m.itemsById
    ensures GetQuantity(ApplyDeltas(m, id, deltas), id) == LiftedSum(GetQuantity(m, id), deltas)
  {
    ApplyDeltasFollowsWalk(m, id, deltas);
    ClampedWalkClosedForm(GetQuantity(m, id), deltas);
  }

  /** Clicking an id that was never loaded changes nothing, however often. */
  lemma {:induction false} UnknownIdClicksChangeNothing(m: Model, id: string, deltas: seq<int>)
    requires id !in m.itemsById
    ensures ApplyDeltas(m, id, deltas) == m
  {
    if |deltas| != 0 {
      UnknownIdClicksChangeNothing(m, id, deltas[..|deltas| - 1]);
    }
  }
}

=== FILE: controller.dfy ===
/** The controller (app.js, class MenuController) as a state machine: it is
    constructed, loads the menu once, and then handles one click at a time.
    Each step returns the new state and the visible effect of the click. */
module Controller {
  import opened Wrappers
  import opened MenuData
  import opened MenuModel
  import opened Text
  import opened Clicks
  import opened Booking

  /** Loading until `init` has run; Ready once the menu loaded and the
      listeners are bound; Unavailable when loading failed and nothing is
      bound. */
  datatype Phase = Loading | Ready | Unavailable

  datatype App = App(model: Model, recipient: string, navigationOpen: bool, phase: Phase)

  datatype Event =
    | QuantityButton(itemId: Option<string>, action: Option<string>)
    | BookOrderClick
    | NavToggleClick
    | NavLinkClick

  datatype Effect =
    | NoEffect
    | MenuShown(categories: seq<Category>, summary: seq<SelectedItem>, total: int)
    | MenuUnavailable
    | QuantityShown(itemId: string, quantity: int, summary: seq<SelectedItem>, total: int)
    | HandlerFailed(error: ModelError)
    | Booked(outcome: BookOutcome)
    | NavigationShown(open: bool)

  /** The constructor: an empty model, the phone number stripped to its
      digits, and the navigation closed. */
  function NewApp(whatsappNumber: string): (a: App)
    ensures AllDigits(a.recipient) && IsSubsequence(a.recipient, whatsappNumber)
    ensures forall c :: IsDigit(c) ==> multiset(a.recipient)[c] == multiset(whatsappNumber)[c]
    ensures a.phase == Loading && !a.navigationOpen && a.model == Empty && Valid(a.model)
  {
    DigitsOnlyKeepsDigitsInOrder(whatsappNumber);
    App(Empty, DigitsOnly(whatsappNumber), false, Loading)
  }

  /** `init`: on a successful load the menu is shown with an empty order
      summary and the listeners become active; on failure the unavailable
      message is shown and the state stays as it was. */
  function Init(a: App, primary: Result<Data, LoadError>, fallback: Option<Data>): (r: (App, Effect))
    requires a.phase == Loading
    ensures r.0.phase == Ready <==> Load(primary, fallback).Success?
    ensures r.0.phase != Ready ==> r.0.phase == Unavailable && r.0.model == a.model && r.1 == MenuUnavailable
    ensures r.0.phase == Ready ==>
      && r.0.model == Load(primary, fallback).value
      && Valid(r.0.model) && OrderTotal(r.0.model) == 0 && |SelectedItems(r.0.model)| == 0
      && r.1 == MenuShown(r.0.model.categories, [], 0)
    ensures r.0.recipient == a.recipient && r.0.navigationOpen == a.navigationOpen
  {
    match Load(primary, fallback)
    case Success(m) =>
      LoadStartsEmpty(primary, fallback);
      (a.(model := m, phase := Ready), MenuShown(m.categories, [], 0))
    case Failure(_) =>
      (a.(phase := Unavailable), MenuUnavailable)
  }

  /** One click. Nothing is bound before a successful load, so then every
      click is ignored. */
  function Step(a: App, ev: Event, format: int -> string, encode: string -> string): (r: (App, Effect))
    ensures a.phase != Ready ==> r == (a, NoEffect)
    ensures r.0.recipient == a.recipient && r.0.phase == a.phase
    ensures Valid(a.model) ==> Valid(r.0.model)
    ensures !ev.QuantityButton? ==> r.0.model == a.model
    ensures ev.QuantityButton? ==> r.0.navigationOpen == a.navigationOpen
    ensures a.phase == Ready && ev.NavToggleClick? ==>
      r.0.navigationOpen == !a.navigationOpen && r.1 == NavigationShown(r.0.navigationOpen)
    ensures a.phase == Ready && ev.NavLinkClick? ==> !r.0.navigationOpen && r.1 == NavigationShown(false)
    ensures a.phase == Ready && ev.BookOrderClick? ==>
      r.0 == a && r.1 == Booked(BookOrder(a.model, a.recipient, format, encode))
      && (r.1.outcome.EmptyNotice? <==> |SelectedItems(a.model)| == 0)
    ensures a.phase == Ready && ev.QuantityButton? && DecodeClick(ev.itemId, ev.action).None? ==>
      r == (a, NoEffect)
    ensures a.phase == Ready && ev.QuantityButton? && DecodeClick(ev.itemId, ev.action).Some? ==>
      var id := ev.itemId.value;
      if id in a.model.itemsById then
        && r.1.QuantityShown? && r.1.itemId == id
        && r.1.quantity == GetQuantity(r.0.model, id)
        && r.1.summary == SelectedItems(r.0.model) && r.1.total == OrderTotal(r.0.model)
      else
        r == (a, HandlerFailed(UnknownItem(id)))
    ensures a.phase == Ready && ev.QuantityButton? && DecodeClick(ev.itemId, ev.action).Some? ==>
      r.0.model == AfterClick(a.model, ev.itemId.value, DecodeClick(ev.itemId, ev.action).value.1)
  {
    if a.phase != Ready then (a, NoEffect)
    else
      match ev
      case QuantityButton(itemId, action) =>
        (match DecodeClick(itemId, action)
         case None => (a, NoEffect)
         case Some((id, delta)) =>
           var next := ClampAtZero(GetQuantity(a.model, id) + delta);
           match SetQuantity(a.model, id, next)
           case Failure(e) => (a, HandlerFailed(e))
           case Success((m, _)) =>
             (a.(model := m), QuantityShown(id, next, SelectedItems(m), OrderTotal(m))))
      case BookOrderClick =>
        (a, Booked(BookOrder(a.model, a.recipient, format, encode)))
      case NavToggleClick =>
        (a.(navigationOpen := !a.navigationOpen), NavigationShown(!a.navigationOpen))
      case NavLinkClick =>
        (a.(navigationOpen := false), NavigationShown(false))
  }

  /** The state after handling the events in order. */
  function Run(a: App, events: seq<Event>, format: int -> string, encode: string -> string): App
    decreases |events|
  {
    if |events| == 0 then a
    else Step(Run(a, events[..|events| - 1], format, encode), events[|events| - 1], format, encode).0
  }

  /** Over any run the model invariant holds (so no quantity is ever
      negative), the recipient stays digits only, and the phase is fixed. */
  lemma {:induction false} RunKeepsInvariant(a: App, events: seq<Event>, format: int -> string, encode: string -> string)
    requires Valid(a.model) && AllDigits(a.recipient)
    ensures Valid(Run(a, events, format, encode).model)
    ensures AllDigits(Run(a, events, format, encode).recipient)
    ensures Run(a, events, format, encode).phase == a.phase
  {
    if |events| != 0 {
      RunKeepsInvariant(a, events[..|events| - 1], format, encode);
    }
  }

  /** After a failed load no click changes anything. */
  lemma {:induction false} UnavailableIgnoresClicks(a: App, events: seq<Event>, format: int -> string, encode: string -> string)
    requires a.phase != Ready
    ensures Run(a, events, format, encode) == a
  {
    if |events| != 0 {
      UnavailableIgnoresClicks(a, events[..|events| - 1], format, encode);
    }
  }

  /** Clicks on the quantity buttons of one item, with the given actions. */
  function ClicksOn(id: string, actions: seq<string>): (r: seq<Event>)
    ensures |r| == |actions|
    ensures forall k :: 0 <= k < |actions| ==> r[k] == QuantityButton(Some(id), Some(actions[k]))
  {
    seq(|actions|, k requires 0 <= k < |actions| => QuantityButton(Some(id), Some(actions[k])))
  }

  function Deltas(actions: seq<string>): (r: seq<int>)
    ensures |r| == |actions|
    ensures forall k :: 0 <= k < |actions| ==> r[k] == ClickDelta(actions[k])
  {
    seq(|actions|, k requires 0 <= k < |actions| => ClickDelta(actions[k]))
  }

  /** Running a sequence of button clicks on one item is applying their
      deltas to the model one by one. */
  lemma {:induction false} ClicksApplyDeltas(a: App, id: string, actions: seq<string>, format: int -> string, encode: string -> string)
    requires a.phase == Ready && id != ""
    requires forall k :: 0 <= k < |actions| ==> actions[k] != ""
    ensures Run(a, ClicksOn(id, actions), format, encode).model == ApplyDeltas(a.model, id, Deltas(actions))
  {
    if |actions| != 0 {
      var n := |actions| - 1;
      var events := ClicksOn(id, actions);
      var deltas := Deltas(actions);
      ClicksApplyDeltas(a, id, actions[..n], format, encode);
      assert events[..n] == ClicksOn(id, actions[..n]);
      assert deltas[..n] == Deltas(actions[..n]);
      var a0 := Run(a, events[..n], format, encode);
      RunKeepsPhase(a, events[..n], format, encode);
      assert Run(a, events, format, encode) == Step(a0, events[n], format, encode).0;
      StepOnButtonIsClick(a0, id, actions[n], format, encode);
      assert ApplyDeltas(a.model, id, deltas) == AfterClick(ApplyDeltas(a.model, id, deltas[..n]), id, deltas[n]);
    }
  }

  /** A quantity-button click on a ready controller moves the model the way
      the click handler does. */
  lemma StepOnButtonIsClick(a: App, id: string, action: string, format: int -> string, encode: string -> string)
    requires a.phase == Ready && id != "" && action != ""
    ensures Step(a, QuantityButton(Some(id), Some(action)), format, encode).0.model == AfterClick(a.model, id, ClickDelta(action))
  {
  }

  lemma {:induction false} RunKeepsPhase(a: App, events: seq<Event>, format: int -> string, encode: string -> string)
    ensures Run(a, events, format, encode).phase == a.phase
  {
    if |events| != 0 {
      RunKeepsPhase(a, events[..|events| - 1], format, encode);
    }
  }

  /** For any sequence of increase/decrease clicks on a loaded item, the
      displayed quantity is the clamped running sum of the deltas: the
      running sum, lifted by however far it ever sank below zero. */
  lemma QuantityAfterClicks(a: App, id: string, actions: seq<string>, format: int -> string, encode: string -> string)
    requires a.phase == Ready && Valid(a.model)
    requires id in a.model.itemsById && id != ""
    requires forall k :: 0 <= k < |actions| ==> actions[k] != ""
    ensures GetQuantity(Run(a, ClicksOn(id, actions), format, encode).model, id) ==
      LiftedSum(GetQuantity(a.model, id), Deltas(actions))
  {
    ClicksApplyDeltas(a, id, actions, format, encode);
    ApplyDeltasClosedForm(a.model, id, Deltas(actions));
  }

  /** The deltas of the quantity-button clicks, among `events`, that the
      handler decodes as clicks on `id`, in the order they happen. */
  function DeltasFor(events: seq<Event>, id: string): (r: seq<int>)
    ensures |r| <= |events|
    decreases |events|
  {
    if |events| == 0 then []
    else
      var rest := DeltasFor(events[..|events| - 1], id);
      var ev := events[|events| - 1];
      if ev.QuantityButton? && DecodeClick(ev.itemId, ev.action).Some?
         && DecodeClick(ev.itemId, ev.action).value.0 == id
      then rest + [DecodeClick(ev.itemId, ev.action).value.1]
      else rest
  }

  /** For any run of events on a ready controller, however clicks on other
      items, bookings and navigation clicks are interleaved, the quantity
      of a loaded item is the clamped running sum of its own click deltas. */
  lemma {:induction false} QuantityAfterRun(a: App, events: seq<Event>, id: string, format: int -> string, encode: string -> string)
    requires a.phase == Ready && Valid(a.model) && id in a.model.itemsById
    ensures Valid(Run(a, events, format, encode).model)
    ensures Run(a, events, format, encode).model.itemsById == a.model.itemsById
    ensures GetQuantity(Run(a, events, format, encode).model, id) ==
      ClampedWalk(GetQuantity(a.model, id), DeltasFor(events, id))
  {
    if |events| != 0 {
      var n := |events| - 1;
      var prefix := events[..n];
      QuantityAfterRun(a, prefix, id, format, encode);
      RunKeepsPhase(a, prefix, format, encode);
      var a0 := Run(a, prefix, format, encode);
      var ev := events[n];
      assert Run(a, events, format, encode) == Step(a0, ev, format, encode).0;
      var walk := ClampedWalk(GetQuantity(a.model, id), DeltasFor(prefix, id));
      if ev.QuantityButton? && DecodeClick(ev.itemId, ev.action).Some? {
        var (id', delta) := DecodeClick(ev.itemId, ev.action).value;
        var h := HandleQuantityChange(a0.model, id', delta);
        assert Step(a0, ev, format, encode).0.model == AfterClick(a0.model, id', delta);
        if id' == id {
          var ds := DeltasFor(events, id);
          assert ds == DeltasFor(prefix, id) + [delta];
          assert ds[..|ds| - 1] == DeltasFor(prefix, id);
          assert h.Success?;
          assert GetQuantity(h.value, id) == ClampAtZero(walk + delta);
        } else {
          assert DeltasFor(events, id) == DeltasFor(prefix, id);
        }
      } else {
        assert DeltasFor(events, id) == DeltasFor(prefix, id);
      }
    }
  }
}

=== FILE: menu_data.dfy ===
/** The menu data as it arrives from the menu source (the fetched JSON body
    or the embedded fallback copy), and the flattening of its categories
    into the (item, owning category) pairs that loading walks through. */
module MenuData {
  import opened Wrappers

  /** A purchasable menu entry. Prices are whole currency units. */
  datatype Item = Item(
    id: string,
    name: string,
    price: int,
    description: Option<string>,
    icon: Option<string>,
    unitLabel: Option<string>)

  /** A named group of items. `items` is `None` when the category's
      `items` field is missing or falsy (`null`, `false`, `0`, `""`); the
      source reads those as an empty list. */
  datatype Category = Category(
    id: string,
    name: string,
    description: Option<string>,
    items: Option<seq<Item>>)

  /** The body of a menu source. `categories` is `None` when the body's
      `categories` field is not an array. */
  datatype Data = Data(categories: Option<seq<Category>>)

  /** An item as it is stored after loading: the item's own fields plus the
      id of the category it was listed under. */
  datatype Entry = Entry(item: Item, categoryId: string)

  /** A missing items array reads as an empty one. */
  function ItemsOf(c: Category): seq<Item> {
    c.items.GetOr([])
  }

  /** A `categories` field that is not an array reads as no categories. */
  function CategoriesOf(d: Data): seq<Category> {
    d.categories.GetOr([])
  }

  /** The entries of one category, in listing order. */
  function EntriesOf(c: Category): (r: seq<Entry>)
    ensures |r| == |ItemsOf(c)|
    ensures forall j :: 0 <= j < |r| ==> r[j] == Entry(ItemsOf(c)[j], c.id)
  {
    seq(|ItemsOf(c)|, j requires 0 <= j < |ItemsOf(c)| => Entry(ItemsOf(c)[j], c.id))
  }

  /** Every (item, category) pair of the menu: categories in order, and the
      items of each category in order. */
  function Flatten(cats: seq<Category>): seq<Entry> {
    if |cats| == 0 then [] else EntriesOf(cats[0]) + Flatten(cats[1..])
  }

  /** An entry of the flattened menu is exactly an item listed under some
      category, tagged with that category's id. */
  lemma {:induction false} FlattenMembers(cats: seq<Category>, e: Entry)
    ensures e in Flatten(cats) <==>
      exists i, j :: 0 <= i < |cats| && 0 <= j < |ItemsOf(cats[i])| && e == Entry(ItemsOf(cats[i])[j], cats[i].id)
  {
    if |cats| == 0 {
    } else {
      FlattenMembers(cats[1..], e);
      var head := EntriesOf(cats[0]);
      assert Flatten(cats) == head + Flatten(cats[1..]);
      if e in Flatten(cats) {
        if e in head {
          var j :| 0 <= j < |head| && head[j] == e;
          assert e == Entry(ItemsOf(cats[0])[j], cats[0].id);
        } else {
          assert e in Flatten(cats[1..]);
          var i, j :| 0 <= i < |cats[1..]| && 0 <= j < |ItemsOf(cats[1..][i])| && e == Entry(ItemsOf(cats[1..][i])[j], cats[1..][i].id);
          assert cats[1..][i] == cats[i + 1];
        }
      }
      if exists i, j :: 0 <= i < |cats| && 0 <= j < |ItemsOf(cats[i])| && e == Entry(ItemsOf(cats[i])[j], cats[i].id) {
        var i, j :| 0 <= i < |cats| && 0 <= j < |ItemsOf(cats[i])| && e == Entry(ItemsOf(cats[i])[j], cats[i].id);
        if i == 0 {
          assert head[j] == e;
        } else {
          assert cats[1..][i - 1] == cats[i];
          assert e in Flatten(cats[1..]);
        }
      }
    }
  }
}

=== FILE: menu_model.dfy ===
/** The order state kept by the menu model (app.js, class MenuModel): the
    item lookup, the per-item quantities, and the queries derived from them.

    A JavaScript `Map` iterates in insertion order, and setting a key that is
    already present keeps its position. `order` records that iteration order
    for the `quantities` map, which is the only map the model iterates. */
module MenuModel {
  import opened Wrappers
  import opened MenuData

  /** Why the menu source could not be read. */
  datatype LoadError = NetworkError | HttpStatus(status: int) | MalformedBody

  /** Setting a quantity for an id that was never loaded. */
  datatype ModelError = UnknownItem(id: string)

  /** What a fetch of the menu source produced before its body is used. */
  datatype FetchOutcome =
    | Rejected
    | Response(ok: bool, status: int, body: Option<Data>)

  datatype Model = Model(
    categories: seq<Category>,
    itemsById: map<string, Entry>,
    quantities: map<string, int>,
    order: seq<string>)

  /** A derived line of the order: the stored item, its quantity and
      quantity times unit price. */
  datatype SelectedItem = SelectedItem(entry: Entry, quantity: int, subtotal: int) {
    function Id(): string {
      entry.item.id
    }
  }

  /** The state of a freshly constructed model, and of the maps right after
      they are cleared at the start of a load. */
  const Empty: Model := Model([], map[], map[], [])

  predicate NoDuplicates(ids: seq<string>) {
    forall i, j :: 0 <= i < j < |ids| ==> ids[i] != ids[j]
  }

  /** The invariant every reachable model keeps: both maps have the same
      keys, `order` lists each of them exactly once, every quantity is
      non-negative, and every item is filed under its own id. */
  predicate Valid(m: Model) {
    && m.itemsById.Keys == m.quantities.Keys
    && (forall id :: id in m.quantities ==> id in m.order)
    && (forall id :: id in m.order ==> id in m.quantities)
    && NoDuplicates(m.order)
    && (forall id :: id in m.quantities ==> m.quantities[id] >= 0)
    && (forall id :: id in m.itemsById ==> m.itemsById[id].item.id == id)
  }

  function ClampAtZero(x: int): nat {
    if x < 0 then 0 else x
  }

  // ---------------------------------------------------------------------
  // Loading

  /** Turns a fetch into the menu body or the reason it is unusable: a
      rejected fetch, a non-success status, or a body that does not parse. */
  function ReadResponse(f: FetchOutcome): (r: Result<Data, LoadError>)
    ensures r.Success? <==> f.Response? && f.ok && f.body.Some?
    ensures r.Success? ==> r.value == f.body.value
    ensures f.Rejected? ==> r == Failure(NetworkError)
    ensures f.Response? && !f.ok ==> r == Failure(HttpStatus(f.status))
    ensures f.Response? && f.ok && f.body.None? ==> r == Failure(MalformedBody)
  {
    match f
    case Rejected => Failure(NetworkError)
    case Response(ok, status, body) =>
      if !ok then Failure(HttpStatus(status))
      else if body.None? then Failure(MalformedBody)
      else Success(body.value)
  }

  /** Records one loaded entry: the item is filed under its id (a later
      duplicate replaces an earlier one) and its quantity is reset to 0. */
  function Put(m: Model, e: Entry): Model {
    var id := e.item.id;
    m.(itemsById := m.itemsById[id := e],
       quantities := m.quantities[id := 0],
       order := if id in m.quantities then m.order else m.order + [id])
  }

  /** Starting from cleared maps, records every entry in turn. */
  function Build(entries: seq<Entry>): Model
    decreases |entries|
  {
    if |entries| == 0 then Empty
    else Put(Build(entries[..|entries| - 1]), entries[|entries| - 1])
  }

  /** No later entry carries the same item id as entry `k`. */
  predicate IsLastOccurrence(entries: seq<Entry>, k: int)
    requires 0 <= k < |entries|
  {
    forall j :: k < j < |entries| ==> entries[j].item.id != entries[k].item.id
  }

  /** The state both load paths produce from a menu body: the categories
      replace the old ones and both maps are rebuilt from scratch. */
  function Populate(d: Data): Model {
    Build(Flatten(CategoriesOf(d))).(categories := CategoriesOf(d))
  }

  /** `loadMenu`: use the fetched body when there is one, otherwise the
      fallback copy when it exists, otherwise fail with the fetch's error. */
  function Load(primary: Result<Data, LoadError>, fallback: Option<Data>): (r: Result<Model, LoadError>)
    ensures r.Failure? <==> primary.Failure? && fallback.None?
    ensures r.Failure? ==> r.error == primary.error
    ensures r.Success? ==> r.value == Populate(if primary.Success? then primary.value else fallback.value)
  {
    match primary
    case Success(d) => Success(Populate(d))
    case Failure(e) =>
      match fallback
      case Some(d) => Success(Populate(d))
      case None => Failure(e)
  }

  /** Recording an entry keeps the model invariant. */
  lemma PutValid(m: Model, e: Entry)
    requires Valid(m)
    ensures Valid(Put(m, e))
  {
    var id := e.item.id;
    var m' := Put(m, e);
    if id !in m.quantities {
      assert id !in m.order;
      forall i, j | 0 <= i < j < |m'.order| ensures m'.order[i] != m'.order[j] {
        if j == |m.order| {
          assert m'.order[i] == m.order[i];
        } else {
          assert m'.order[i] == m.order[i] && m'.order[j] == m.order[j];
        }
      }
    }
  }

  lemma {:induction false} BuildValid(entries: seq<Entry>)
    ensures Valid(Build(entries))
  {
    if |entries| != 0 {
      BuildValid(entries[..|entries| - 1]);
      PutValid(Build(entries[..|entries| - 1]), entries[|entries| - 1]);
    }
  }

  /** The loaded ids are exactly the ids of the entries, all at quantity 0. */
  lemma {:induction false} BuildKeys(entries: seq<Entry>)
    ensures forall id :: id in Build(entries).itemsById <==>
      exists k :: 0 <= k < |entries| && entries[k].item.id == id
    ensures forall id :: id in Build(entries).quantities ==> Build(entries).quantities[id] == 0
  {
    if |entries| != 0 {
      var n := |entries| - 1;
      var prefix := entries[..n];
      var e := entries[n];
      BuildKeys(prefix);
      var m := Build(entries);
      assert m == Put(Build(prefix), e);
      forall id | id in m.itemsById
        ensures exists k :: 0 <= k < |entries| && entries[k].item.id == id
      {
        if id != e.item.id {
          var k :| 0 <= k < |prefix| && prefix[k].item.id == id;
          assert entries[k] == prefix[k];
        }
      }
      forall id | exists k :: 0 <= k < |entries| && entries[k].item.id == id
        ensures id in m.itemsById
      {
        var k :| 0 <= k < |entries| && entries[k].item.id == id;
        if k < n {
          assert prefix[k] == entries[k];
        }
      }
    }
  }

  /** Every stored entry is one of the loaded entries. */
  lemma {:induction false} BuildValuesFromEntries(entries: seq<Entry>)
    ensures forall id :: id in Build(entries).itemsById ==> Build(entries).itemsById[id] in entries
  {
    if |entries| != 0 {
      var n := |entries| - 1;
      var prefix := entries[..n];
      BuildValuesFromEntries(prefix);
      var m0 := Build(prefix);
      var m := Build(entries);
      assert m == Put(m0, entries[n]);
      forall id | id in m.itemsById
        ensures m.itemsById[id] in entries
      {
        if id != entries[n].item.id {
          assert m0.itemsById[id] in prefix;
        }
      }
    }
  }

  /** For each id, the last entry carrying it is the one kept. */
  lemma {:induction false} BuildKeepsLast(entries: seq<Entry>)
    ensures forall k :: 0 <= k < |entries| && IsLastOccurrence(entries, k) ==>
      entries[k].item.id in Build(entries).itemsById &&
      Build(entries).itemsById[entries[k].item.id] == entries[k]
  {
    if |entries| != 0 {
      var n := |entries| - 1;
      var prefix := entries[..n];
      BuildKeepsLast(prefix);
      var m := Build(entries);
      assert m == Put(Build(prefix), entries[n]);
      forall k | 0 <= k < n && IsLastOccurrence(entries, k)
        ensures entries[k].item.id in m.itemsById && m.itemsById[entries[k].item.id] == entries[k]
      {
        assert prefix[k] == entries[k];
        assert IsLastOccurrence(prefix, k);
        assert entries[n].item.id != entries[k].item.id;
      }
    }
  }

  /** After a load of `d`, every listed item has a stored entry tagged with
      its category's id and a quantity of 0, nothing else is stored, a
      duplicated id keeps its last listing, and the categories are those of
      `d`. Nothing survives from any earlier state. */
  lemma PopulateSpec(d: Data)
    ensures Valid(Populate(d))
    ensures Populate(d).categories == CategoriesOf(d)
    ensures forall i, j :: 0 <= i < |CategoriesOf(d)| && 0 <= j < |ItemsOf(CategoriesOf(d)[i])| ==>
      var it := ItemsOf(CategoriesOf(d)[i])[j];
      it.id in Populate(d).itemsById && Populate(d).quantities[it.id] == 0
    ensures forall id :: id in Populate(d).quantities ==> Populate(d).quantities[id] == 0
    ensures forall id :: id in Populate(d).itemsById ==>
      exists i, j :: 0 <= i < |CategoriesOf(d)| && 0 <= j < |ItemsOf(CategoriesOf(d)[i])| &&
        Populate(d).itemsById[id] == Entry(ItemsOf(CategoriesOf(d)[i])[j], CategoriesOf(d)[i].id)
    ensures forall k :: 0 <= k < |Flatten(CategoriesOf(d))| && IsLastOccurrence(Flatten(CategoriesOf(d)), k) ==>
      Flatten(CategoriesOf(d))[k].item.id in Populate(d).itemsById &&
      Populate(d).itemsById[Flatten(CategoriesOf(d))[k].item.id] == Flatten(CategoriesOf(d))[k]
  {
    var cats := CategoriesOf(d);
    var entries := Flatten(cats);
    var m := Populate(d);
    BuildValid(entries);
    BuildKeys(entries);
    BuildValuesFromEntries(entries);
    BuildKeepsLast(entries);
    forall i, j | 0 <= i < |cats| && 0 <= j < |ItemsOf(cats[i])|
      ensures ItemsOf(cats[i])[j].id in m.itemsById
    {
      var e := Entry(ItemsOf(cats[i])[j], cats[i].id);
      FlattenMembers(cats, e);
      var k :| 0 <= k < |entries| && entries[k] == e;
    }
    forall id | id in m.itemsById
      ensures exists i, j ::
        (0 <= i < |cats| && 0 <= j < |ItemsOf(cats[i])| &&
         m.itemsById[id] == Entry(ItemsOf(cats[i])[j], cats[i].id))
    {
      FlattenMembers(cats, m.itemsById[id]);
    }
  }

  /** The fallback path is the primary path run on the fallback body. */
  lemma FallbackSameAsPrimary(e: LoadError, d: Data, other: Option<Data>)
    ensures Load(Failure(e), Some(d)) == Load(Success(d), other)
    ensures Load(Failure(e), Some(d)).Success?
  {
  }

  // ---------------------------------------------------------------------
  // Quantities

  /** `setQuantity`: an unknown id fails and changes nothing; a known id
      stores the quantity raised to at least 0 and returns it. */
  function SetQuantity(m: Model, id: string, quantity: int): (r: Result<(Model, int), ModelError>)
    ensures r.Failure? <==> id !in m.itemsById
    ensures r.Failure? ==> r.error == UnknownItem(id)
    ensures r.Success? ==>
      var (m', stored) := r.value;
      && stored >= 0 && stored >= quantity && (stored == quantity || stored == 0)
      && id in m'.quantities && m'.quantities[id] == stored
      && m'.itemsById == m.itemsById && m'.categories == m.categories
      && (forall other :: other != id ==>
            (other in m'.quantities <==> other in m.quantities)
            && (other in m.quantities ==> m'.quantities[other] == m.quantities[other]))
    ensures r.Success? && Valid(m) ==> Valid(r.value.0) && r.value.0.order == m.order
  {
    if id !in m.itemsById then
      Failure(UnknownItem(id))
    else
      var stored := ClampAtZero(quantity);
      var order := if id in m.quantities then m.order else m.order + [id];
      Success((m.(quantities := m.quantities[id := stored], order := order), stored))
  }

  /** `getQuantity`: the stored quantity, 0 for an id with none. */
  function GetQuantity(m: Model, id: string): (r: int)
    ensures id in m.quantities ==> r == m.quantities[id]
    ensures id !in m.quantities ==> r == 0
    ensures Valid(m) ==> r >= 0
  {
    if id in m.quantities then m.quantities[id] else 0
  }

  /** Reading back after a successful set yields the stored value, and no
      other id's reading moves. */
  lemma GetAfterSet(m: Model, id: string, quantity: int, other: string)
    requires id in m.itemsById
    ensures SetQuantity(m, id, quantity).Success?
    ensures GetQuantity(SetQuantity(m, id, quantity).value.0, id) == ClampAtZero(quantity)
    ensures other != id ==>
      GetQuantity(SetQuantity(m, id, quantity).value.0, other) == GetQuantity(m, other)
  {
  }

  // ---------------------------------------------------------------------
  // Selection and total

  /** The selected lines for `ids`, visited in order: one per id whose
      quantity is positive and whose item is stored. */
  function SelectFrom(m: Model, ids: seq<string>): seq<SelectedItem>
    decreases |ids|
  {
    if |ids| == 0 then []
    else
      var id := ids[0];
      var rest := SelectFrom(m, ids[1..]);
      if id in m.quantities && m.quantities[id] > 0 && id in m.itemsById then
        var q := m.quantities[id];
        [SelectedItem(m.itemsById[id], q, q * m.itemsById[id].item.price)] + rest
      else rest
  }

  /** `getSelectedItems`: walks the quantities in their iteration order. */
  function SelectedItems(m: Model): seq<SelectedItem> {
    SelectFrom(m, m.order)
  }

  function SumSubtotals(items: seq<SelectedItem>): int {
    if |items| == 0 then 0 else items[0].subtotal + SumSubtotals(items[1..])
  }

  /** `getOrderTotal`: the sum of the selected lines' subtotals. */
  function OrderTotal(m: Model): int {
    SumSubtotals(SelectedItems(m))
  }

  /** Reference total: quantity times price over every listed id, selected
      or not. */
  function LineTotal(m: Model, ids: seq<string>): int
    decreases |ids|
  {
    if |ids| == 0 then 0
    else
      var id := ids[0];
      var line := if id in m.quantities && id in m.itemsById then m.quantities[id] * m.itemsById[id].item.price else 0;
      line + LineTotal(m, ids[1..])
  }

  lemma NoDuplicatesTail(ids: seq<string>)
    requires |ids| > 0 && NoDuplicates(ids)
    ensures NoDuplicates(ids[1..]) && ids[0] !in ids[1..]
  {
    var tail := ids[1..];
    forall i, j | 0 <= i < j < |tail| ensures tail[i] != tail[j] {
      assert tail[i] == ids[i + 1] && tail[j] == ids[j + 1];
    }
    forall i | 0 <= i < |tail| ensures tail[i] != ids[0] {
      assert tail[i] == ids[i + 1];
    }
  }

  /** Each selected line comes from a listed id with a positive quantity and
      carries that id's item, quantity and quantity times price. */
  lemma {:induction false} SelectFromSound(m: Model, ids: seq<string>)
    requires Valid(m)
    ensures forall k :: 0 <= k < |SelectFrom(m, ids)| ==> SelectedLineOk(m, ids, SelectFrom(m, ids)[k])
  {
    if |ids| != 0 {
      var tail := ids[1..];
      SelectFromSound(m, tail);
      var rest := SelectFrom(m, tail);
      var r := SelectFrom(m, ids);
      forall k | 0 <= k < |rest| ensures SelectedLineOk(m, ids, rest[k]) {
        assert SelectedLineOk(m, tail, rest[k]);
      }
      if r != rest {
        assert r == [r[0]] + rest;
        forall k | 1 <= k < |r| ensures SelectedLineOk(m, ids, r[k]) {
          assert r[k] == rest[k - 1];
        }
      }
    }
  }

  /** What a selected line says about the model. */
  predicate SelectedLineOk(m: Model, ids: seq<string>, s: SelectedItem) {
    && s.Id() in ids && s.Id() in m.quantities && s.Id() in m.itemsById
    && s.quantity == m.quantities[s.Id()] && s.quantity > 0
    && s.entry == m.itemsById[s.Id()]
    && s.subtotal == s.quantity * s.entry.item.price
  }

  /** Some line of `items` is for `id`. */
  ghost predicate HasLine(items: seq<SelectedItem>, id: string) {
    exists k :: 0 <= k < |items| && items[k].Id() == id
  }

  /** Every listed id with a positive quantity has a line. */
  lemma {:induction false} SelectFromComplete(m: Model, ids: seq<string>)
    requires Valid(m)
    ensures forall id :: id in ids && id in m.quantities && m.quantities[id] > 0 ==> HasLine(SelectFrom(m, ids), id)
  {
    if |ids| != 0 {
      var id := ids[0];
      var tail := ids[1..];
      SelectFromComplete(m, tail);
      var rest := SelectFrom(m, tail);
      var r := SelectFrom(m, ids);
      forall x | x in ids && x in m.quantities && m.quantities[x] > 0
        ensures HasLine(r, x)
      {
        if x == id {
          assert id in m.itemsById;
          var q := m.quantities[id];
          assert r == [SelectedItem(m.itemsById[id], q, q * m.itemsById[id].item.price)] + rest;
          assert r[0].Id() == x;
        } else {
          assert x in tail;
          assert HasLine(rest, x);
          var k :| 0 <= k < |rest| && rest[k].Id() == x;
          if r != rest {
            assert r[k + 1] == rest[k];
          } else {
            assert r[k].Id() == x;
          }
        }
      }
    }
  }

  /** No id has two lines. */
  lemma {:induction false} SelectFromDistinct(m: Model, ids: seq<string>)
    requires Valid(m)
    requires NoDuplicates(ids)
    ensures forall k, l :: 0 <= k < l < |SelectFrom(m, ids)| ==>
      SelectFrom(m, ids)[k].Id() != SelectFrom(m, ids)[l].Id()
  {
    if |ids| != 0 {
      var tail := ids[1..];
      NoDuplicatesTail(ids);
      SelectFromDistinct(m, tail);
      SelectFromSound(m, tail);
      var rest := SelectFrom(m, tail);
      var r := SelectFrom(m, ids);
      if r != rest {
        assert r == [r[0]] + rest;
        forall k, l | 0 <= k < l < |r| ensures r[k].Id() != r[l].Id() {
          if k == 0 {
            assert r[l] == rest[l - 1];
            assert SelectedLineOk(m, tail, rest[l - 1]);
          } else {
            assert r[k] == rest[k - 1] && r[l] == rest[l - 1];
          }
        }
      }
    }
  }

  /** The ids of a list of order lines, in the same order. */
  function LineIds(lines: seq<SelectedItem>): (r: seq<string>)
    ensures |r| == |lines|
    ensures forall k :: 0 <= k < |lines| ==> r[k] == lines[k].Id()
  {
    seq(|lines|, k requires 0 <= k < |lines| => lines[k].Id())
  }

  /** The ids among `ids` whose quantity is positive, in the order given. */
  function PositiveIds(m: Model, ids: seq<string>): seq<string>
    decreases |ids|
  {
    if |ids| == 0 then []
    else
      var head := if ids[0] in m.quantities && m.quantities[ids[0]] > 0 then [ids[0]] else [];
      head + PositiveIds(m, ids[1..])
  }

  /** Walking `ids`, the lines come out in the order of the positive ids. */
  lemma {:induction false} SelectFromFollowsIds(m: Model, ids: seq<string>)
    requires Valid(m)
    ensures LineIds(SelectFrom(m, ids)) == PositiveIds(m, ids)
  {
    if |ids| != 0 {
      SelectFromFollowsIds(m, ids[1..]);
      var id := ids[0];
      var rest := SelectFrom(m, ids[1..]);
      if id in m.quantities && m.quantities[id] > 0 {
        var line := SelectFrom(m, ids)[0];
        assert SelectFrom(m, ids) == [line] + rest;
        assert line.Id() == id;
        assert LineIds([line] + rest) == [id] + LineIds(rest);
      }
    }
  }

  /** The selected lines are exactly the ids with a positive quantity, each
      once, in iteration order, carrying its stored item, quantity and
      quantity times price. */
  lemma SelectedItemsExact(m: Model)
    requires Valid(m)
    ensures forall k :: 0 <= k < |SelectedItems(m)| ==>
      var s := SelectedItems(m)[k];
      && s.Id() in m.quantities && s.quantity == m.quantities[s.Id()] && s.quantity > 0
      && s.entry == m.itemsById[s.Id()]
      && s.subtotal == s.quantity * s.entry.item.price
    ensures forall id :: id in m.quantities && m.quantities[id] > 0 ==> HasLine(SelectedItems(m), id)
    ensures forall k, l :: 0 <= k < l < |SelectedItems(m)| ==>
      SelectedItems(m)[k].Id() != SelectedItems(m)[l].Id()
    ensures LineIds(SelectedItems(m)) == PositiveIds(m, m.order)
  {
    var r := SelectedItems(m);
    SelectFromFollowsIds(m, m.order);
    assert r == SelectFrom(m, m.order);
    SelectFromSound(m, m.order);
    SelectFromComplete(m, m.order);
    SelectFromDistinct(m, m.order);
    forall k | 0 <= k < |r| ensures SelectedLineOk(m, m.order, r[k]) {
    }
    forall id | id in m.quantities && m.quantities[id] > 0
      ensures HasLine(r, id)
    {
      assert id in m.order;
    }
  }

  /** Nothing is selected exactly when every quantity is 0. */
  lemma NothingSelectedIffAllZero(m: Model)
    requires Valid(m)
    ensures |SelectedItems(m)| == 0 <==> forall id :: id in m.quantities ==> m.quantities[id] == 0
  {
    SelectedItemsExact(m);
    if |SelectedItems(m)| != 0 {
      var s := SelectedItems(m)[0];
      assert s.Id() in m.quantities && m.quantities[s.Id()] > 0;
    }
  }

  lemma {:induction false} SumOfSelectionIsLineTotal(m: Model, ids: seq<string>)
    requires Valid(m)
    ensures SumSubtotals(SelectFrom(m, ids)) == LineTotal(m, ids)
  {
    if |ids| != 0 {
      SumOfSelectionIsLineTotal(m, ids[1..]);
      var id := ids[0];
      if id in m.quantities && m.quantities[id] > 0 && id in m.itemsById {
        var r := SelectFrom(m, ids);
        assert r[1..] == SelectFrom(m, ids[1..]);
      } else if id in m.quantities && id in m.itemsById {
        assert m.quantities[id] == 0;
      }
    }
  }

  /** The order total is quantity times price summed over every loaded item;
      unselected items add nothing. */
  lemma OrderTotalIsLineTotal(m: Model)
    requires Valid(m)
    ensures OrderTotal(m) == LineTotal(m, m.order)
  {
    SumOfSelectionIsLineTotal(m, m.order);
  }

  /** With every quantity at 0 the order total is 0. */
  lemma {:induction false} TotalZeroWhenNothingSelected(m: Model)
    requires Valid(m)
    requires forall id :: id in m.quantities ==> m.quantities[id] == 0
    ensures OrderTotal(m) == 0
  {
    NothingSelectedIffAllZero(m);
  }

  lemma {:induction false} LineTotalUpdate(m: Model, m': Model, ids: seq<string>, id: string, q: int)
    requires NoDuplicates(ids)
    requires id in m.quantities && id in m.itemsById
    requires m'.itemsById == m.itemsById && m'.quantities == m.quantities[id := q]
    ensures LineTotal(m', ids) ==
      LineTotal(m, ids) + (if id in ids then (q - m.quantities[id]) * m.itemsById[id].item.price else 0)
  {
    if |ids| != 0 {
      var tail := ids[1..];
      NoDuplicatesTail(ids);
      LineTotalUpdate(m, m', tail, id, q);
      if ids[0] == id {
        var p := m.itemsById[id].item.price;
        assert q * p - m.quantities[id] * p == (q - m.quantities[id]) * p;
      } else {
        assert id in ids <==> id in tail;
      }
    }
  }

  /** Setting one item's quantity moves the total by exactly the change in
      that item's line. */
  lemma SetQuantityMovesTotal(m: Model, id: string, quantity: int)
    requires Valid(m)
    requires id in m.itemsById
    ensures SetQuantity(m, id, quantity).Success?
    ensures OrderTotal(SetQuantity(m, id, quantity).value.0) ==
      OrderTotal(m) + (ClampAtZero(quantity) - m.quantities[id]) * m.itemsById[id].item.price
  {
    var m' := SetQuantity(m, id, quantity).value.0;
    OrderTotalIsLineTotal(m);
    OrderTotalIsLineTotal(m');
    LineTotalUpdate(m, m', m.order, id, ClampAtZero(quantity));
  }

  /** A successful load leaves nothing selected and a total of 0. */
  lemma LoadStartsEmpty(primary: Result<Data, LoadError>, fallback: Option<Data>)
    requires Load(primary, fallback).Success?
    ensures Valid(Load(primary, fallback).value)
    ensures |SelectedItems(Load(primary, fallback).value)| == 0
    ensures OrderTotal(Load(primary, fallback).value) == 0
  {
    var m := Load(primary, fallback).value;
    var d := if primary.Success? then primary.value else fallback.value;
    assert m == Populate(d);
    PopulateSpec(d);
    NothingSelectedIffAllZero(m);
  }
}

=== FILE: text.dfy ===
/** String helpers the controller relies on: stripping a phone number to its
    decimal digits, rendering an integer in decimal, and joining lines. */
module Text {

  predicate IsDigit(c: char) {
    '0' <= c <= '9'
  }

  predicate AllDigits(s: string) {
    forall i :: 0 <= i < |s| ==> IsDigit(s[i])
  }

  /** Removes every character that is not an ASCII decimal digit, as the
      `\D` class of a JavaScript regular expression does. */
  function DigitsOnly(s: string): (r: string)
    ensures AllDigits(r)
    ensures |r| <= |s|
  {
    if |s| == 0 then ""
    else if IsDigit(s[0]) then [s[0]] + DigitsOnly(s[1..])
    else DigitsOnly(s[1..])
  }

  /** `a` is `b` with some characters deleted. */
  predicate IsSubsequence(a: string, b: string)
    decreases |b|
  {
    if |b| == 0 then |a| == 0
    else (|a| > 0 && a[0] == b[0] && IsSubsequence(a[1..], b[1..])) || IsSubsequence(a, b[1..])
  }

  /** Stripping keeps the digits in their original order and keeps every one
      of them: the result is a subsequence of the input, holds each digit as
      often as the input does, and holds nothing else. */
  lemma {:induction false} DigitsOnlyKeepsDigitsInOrder(s: string)
    ensures IsSubsequence(DigitsOnly(s), s)
    ensures forall c :: IsDigit(c) ==> multiset(DigitsOnly(s))[c] == multiset(s)[c]
    ensures forall c :: !IsDigit(c) ==> multiset(DigitsOnly(s))[c] == 0
  {
    if |s| != 0 {
      DigitsOnlyKeepsDigitsInOrder(s[1..]);
      assert s == [s[0]] + s[1..];
      assert multiset(s) == multiset([s[0]]) + multiset(s[1..]);
      if IsDigit(s[0]) {
        var r := DigitsOnly(s);
        assert r == [s[0]] + DigitsOnly(s[1..]);
        assert r[1..] == DigitsOnly(s[1..]);
        assert multiset(r) == multiset([s[0]]) + multiset(DigitsOnly(s[1..]));
      }
    }
  }

  /** A string of digits is left as it is, so stripping twice is stripping
      once. */
  lemma {:induction false} DigitsOnlyFixesDigits(s: string)
    requires AllDigits(s)
    ensures DigitsOnly(s) == s
  {
    if |s| != 0 {
      DigitsOnlyFixesDigits(s[1..]);
      assert s == [s[0]] + s[1..];
    }
  }

  // ---------------------------------------------------------------------
  // Decimal rendering

  function DigitChar(d: nat): char
    requires d < 10
  {
    "0123456789"[d]
  }

  function DigitValue(c: char): nat {
    if IsDigit(c) then (c - '0') as nat else 0
  }

  /** The decimal spelling of `n`: digits only, no leading zero. */
  function NatToDecimal(n: nat): (r: string)
    ensures |r| > 0 && AllDigits(r)
    ensures |r| > 1 ==> r[0] != '0'
  {
    if n < 10 then [DigitChar(n)] else NatToDecimal(n / 10) + [DigitChar(n % 10)]
  }

  /** The value of a string of decimal digits. */
  function DecimalValue(s: string): nat {
    if |s| == 0 then 0 else DecimalValue(s[..|s| - 1]) * 10 + DigitValue(s[|s| - 1])
  }

  /** Reading back a rendered number yields the number. */
  lemma {:induction false} DecimalRoundTrip(n: nat)
    ensures DecimalValue(NatToDecimal(n)) == n
  {
    if n >= 10 {
      DecimalRoundTrip(n / 10);
      var r := NatToDecimal(n);
      assert r[..|r| - 1] == NatToDecimal(n / 10);
      assert DigitValue(DigitChar(n % 10)) == n % 10;
    } else {
      assert DigitValue(DigitChar(n)) == n;
    }
  }

  /** How a JavaScript template literal spells an integer. */
  function IntToDecimal(i: int): (r: string)
    ensures i >= 0 ==> |r| > 0 && AllDigits(r) && DecimalValue(r) == i && (|r| > 1 ==> r[0] != '0')
    ensures i < 0 ==> |r| > 1 && r[0] == '-' && AllDigits(r[1..]) && DecimalValue(r[1..]) == -i
    ensures i < 0 ==> (|r| > 2 ==> r[1] != '0')
  {
    DecimalRoundTrip(if i < 0 then -i else i);
    if i < 0 then "-" + NatToDecimal(-i) else NatToDecimal(i)
  }

  // ---------------------------------------------------------------------
  // Joining lines

  /** `lines` joined with `sep` between neighbours; no lines give "". */
  function Join(lines: seq<string>, sep: string): string
    decreases |lines|
  {
    if |lines| == 0 then ""
    else if |lines| == 1 then lines[0]
    else lines[0] + sep + Join(lines[1..], sep)
  }

  /** `a` occurs in `b` starting at position `p`. */
  predicate IsInfixAt(a: string, b: string, p: int) {
    0 <= p && p + |a| <= |b| && b[p..p + |a|] == a
  }

  ghost predicate IsInfix(a: string, b: string) {
    exists p :: IsInfixAt(a, b, p)
  }

  lemma InfixOfAppend(a: string, x: string, y: string)
    ensures IsInfix(a, y) ==> IsInfix(a, x + y)
    ensures IsInfix(a, x) ==> IsInfix(a, x + y)
  {
    if IsInfix(a, y) {
      var p :| IsInfixAt(a, y, p);
      assert (x + y)[|x| + p..|x| + p + |a|] == a;
      assert IsInfixAt(a, x + y, |x| + p);
    }
    if IsInfix(a, x) {
      var p :| IsInfixAt(a, x, p);
      assert (x + y)[p..p + |a|] == a;
      assert IsInfixAt(a, x + y, p);
    }
  }

  /** Every joined line appears whole in the joined text. */
  lemma {:induction false} JoinContainsLines(lines: seq<string>, sep: string)
    ensures forall k :: 0 <= k < |lines| ==> IsInfix(lines[k], Join(lines, sep))
  {
    if |lines| == 1 {
      assert IsInfixAt(lines[0], Join(lines, sep), 0);
    } else if |lines| > 1 {
      JoinContainsLines(lines[1..], sep);
      var rest := Join(lines[1..], sep);
      assert Join(lines, sep) == lines[0] + (sep + rest);
      forall k | 0 <= k < |lines| ensures IsInfix(lines[k], Join(lines, sep)) {
        if k == 0 {
          assert Join(lines, sep)[0..|lines[0]|] == lines[0];
          assert IsInfixAt(lines[0], Join(lines, sep), 0);
        } else {
          assert lines[k] == lines[1..][k - 1];
          InfixOfAppend(lines[k], sep, rest);
          InfixOfAppend(lines[k], lines[0], sep + rest);
        }
      }
    }
  }
}

=== FILE: wrappers.dfy ===
/** Wrappers used across the menu model: `Option` for values that may be
    absent and `Result` for operations that can fail. */
module Wrappers {

  datatype Option<+T> = None | Some(value: T) {

    /** Returns the wrapped value, or `default` when absent. */
    function GetOr(default: T): T
    {
      match this
      case Some(v) => v
      case None => default
    }
  }

  datatype Result<+R, +E> = Success(value: R) | Failure(error: E)
}
